=== FILE: README.md ===
# Distributed mutual exclusion: five per-process state machines in Dafny

This project models the five mutual-exclusion processes of the `solution`
package: the centralized coordinator, Lamport's algorithm, Ricart-Agrawala,
the token ring, and the Chandy-Misra fork-passing scheme generalised to a full
mesh ("philosophers"). Each process reacts to three callbacks: a delivered
message, a lock request and an unlock request. Each callback is modelled as a
pure function from the process state and its input to a `Step`, which holds the
new state and the effects in the order the process performs them:

- `Send(dest, msg)`: a message handed to the environment;
- `Lock` / `Unlock`: the process signals entry to or exit from the critical section;
- `Fatal`: the protocol-violation exception that aborts the callback.

The environment is only a sink for these effects. Group size `n`, own id `pid`
and the sender id `src` are inputs.

Files and modules:

- `effects.dfy` (`Effects`): `Effect`, `Step`, the ascending peer list `Peers`.
- `timestamps.dfy` (`Timestamps`): (time, pid) stamps, their priority order
  `Precedes`, and `Compare`, the three-way comparison of `ProcessLamport`'s request records.
- `centralized.dfy` (`Centralized`): coordinator or client state, dispatch,
  handlers, and a run-level lemma over any sequence of events at the coordinator.
- `lamport.dfy` (`Lamport`): logical clock, request bag with min-by-(time, pid),
  `RemoveByPid`, `TryEnter`, handlers, and a clock invariant.
- `ricart_agrawala.dfy` (`RicartAgrawala`): reply-or-defer test, handlers, and
  a deferral invariant.
- `token_ring.dfy` (`TokenRing`): `Next`, ring rotation lemmas, handlers,
  token conservation.
- `philosophers.dfy` (`Philosophers`): fork table, duplicate-Take counters,
  handlers, and the three invariants preserved by every handler.

Two behaviours of the philosophers process differ from Chandy and Misra's
algorithm, and the model keeps the code's behaviour:

- When a process that is not hungry is asked for a clean fork, it marks every
  clean fork it holds dirty, the requested one included, so it surrenders the
  requested fork at once (`src/solution/ProcessPhilosophers.java:69-85`).
- On unlock, every peer entry that is not `OWNGIVE` becomes `DIRTY`, including
  entries that are `NOTOWN` (`src/solution/ProcessPhilosophers.java:127-128`).
  The fork counter and the table agree afterwards whenever every peer's fork
  is held, as it is while eating (`Philosophers.OnUnlockRequestKeepsInv`). An
  unlock with a `NOTOWN` peer marks that fork `DIRTY` and the counter drifts
  (`Philosophers.UnlockWithoutForkBreaksInv`).

## Model

| member | source | states |
|---|---|---|
| Effects.Peers | src/solution/ProcessLamport.java:75-80 | the broadcast loops visit exactly the processes 1..n other than self, each once and in ascending order; there are n-1 of them |
| Timestamps.Max | src/solution/ProcessLamport.java:45 | the clock update takes the larger of the local clock and one past the received time |
| Timestamps.Compare | src/solution/ProcessLamport.java:101-106 | the request comparison is negative, zero or positive exactly when the first stamp precedes, equals or follows the second in (time, pid) order |
| Timestamps.PrecedesIsStrictTotalOrder | src/solution/ProcessLamport.java:101-106 | request ordering is a strict total order; two requests are equal under it only if both time and pid are equal |
| Lamport.Init | src/solution/ProcessLamport.java:17-19 | a new process has clock 0, an empty queue and the "not waiting" ack count -1 |
| Lamport.MinIndex | src/solution/ProcessLamport.java:35-36 | the queue head is a request whose priority is at least that of every queued request |
| Lamport.PopMin | src/solution/ProcessLamport.java:36 | polling removes exactly one highest-priority request and keeps every other entry |
| Lamport.RemoveByPid | src/solution/ProcessLamport.java:108-111 | removal by pid takes out exactly one entry of that pid, whatever its time; other entries remain; with no such entry the queue is unchanged |
| Lamport.Release | src/solution/ProcessLamport.java:46-52 | on REL from src, exactly one entry of src is removed and every other entry remains; when the head is src's request, the head is the entry removed; with no entry of src the queue is unchanged |
| Lamport.TryEnter | src/solution/ProcessLamport.java:34-40 | Lock is emitted iff all n-1 acks are in and our own request heads the queue; on success that request is removed and acks reset to -1; otherwise nothing changes |
| Lamport.OnMessage | src/solution/ProcessLamport.java:43-68 | the clock never decreases and ends above the received time; REQ queues (time, src), answers one OK to src with no deferral and changes nothing else; REL and OK feed TryEnter; an unknown tag is Fatal with only the clock advanced, a foreign object is Fatal with nothing changed |
| Lamport.OnLockRequest | src/solution/ProcessLamport.java:71-85 | the clock ends at t+1; with peers, acks reset to 0, (t, pid) is queued and REQ(t) goes to every peer; a group of one enters iff its request heads the queue, and then the entered request is removed and acks become -1, otherwise (t, pid) stays queued with acks 0 |
| Lamport.OnUnlockRequest | src/solution/ProcessLamport.java:88-97 | Unlock comes first, then one REL to each peer in order, each stamped one tick later; queue and acks are untouched |
| Lamport.InitIsClockAhead | src/solution/ProcessLamport.java:17-19 | a new process satisfies the clock invariant |
| Lamport.ReleaseKeepsClockAhead | src/solution/ProcessLamport.java:46-52 | handling a release only removes requests, so every remaining request stays stamped before the clock |
| Lamport.TryEnterKeepsClockAhead | src/solution/ProcessLamport.java:34-40 | entering keeps every queued request stamped before the clock |
| Lamport.QueueKeepsClockAhead | src/solution/ProcessLamport.java:56-59 | a queued request stamped no later than the clock (a received one, after the clock has advanced past it, or our own) stays behind the clock once the send ticks it |
| Lamport.OnMessageKeepsClockAhead | src/solution/ProcessLamport.java:43-68 | a delivered message keeps every queued request stamped before the clock, including the one it queues |
| Lamport.OnLockRequestKeepsClockAhead | src/solution/ProcessLamport.java:71-85 | our own request is queued with the current clock, which then ticks past it |
| Lamport.HandlersKeepClockAhead | src/solution/ProcessLamport.java:43-97 | every handler keeps each queued request, our own included, stamped strictly before the local clock |
| RicartAgrawala.Init | src/solution/ProcessRickartAgrawala.java:16-19 | a new process has clock 0, no pending request, no acks and nobody deferred |
| RicartAgrawala.AnswersAtOnceIsPriority | src/solution/ProcessRickartAgrawala.java:30 | a REQ (t, src) is answered at once iff we are not requesting or (t, src) precedes our (mySendTime, pid) |
| RicartAgrawala.ExactlyOneDefers | src/solution/ProcessRickartAgrawala.java:30 | of two distinct requesting processes, exactly one answers the other's REQ at once and the other defers |
| RicartAgrawala.OnMessage | src/solution/ProcessRickartAgrawala.java:26-46 | the clock ends above the received time; REQ gets one OK carrying the clock, which then ticks, or src is appended to the deferred queue; OK counts up and Lock is emitted exactly when the count reaches n-1; an unknown tag is Fatal with only the clock advanced, a foreign object is Fatal with nothing changed |
| RicartAgrawala.OnLockRequest | src/solution/ProcessRickartAgrawala.java:49-62 | the request time is the clock t, acks reset, REQ(t) goes to every peer, the clock ends at t+1, and Lock is emitted iff n == 1 |
| RicartAgrawala.OnUnlockRequest | src/solution/ProcessRickartAgrawala.java:65-72 | Unlock comes first, then each deferred requester gets exactly one OK in queue order, with consecutive times; the queue ends empty and no request is pending |
| RicartAgrawala.InitIsDeferralSound | src/solution/ProcessRickartAgrawala.java:16-19 | a new process satisfies the deferral invariant |
| RicartAgrawala.HandlersKeepDeferralSound | src/solution/ProcessRickartAgrawala.java:25-72 | every handler keeps the invariant: requesters are deferred only while our own request, stamped before the clock, is pending |
| TokenRing.Next | src/solution/ProcessToken.java:25-30 | the successor is a ring member, and differs from self when there is more than one process |
| TokenRing.HopsIsRotation | src/solution/ProcessToken.java:25-30 | k successive hops, k at most n, move the token k places on, wrapping past n |
| TokenRing.FullCircle | src/solution/ProcessToken.java:25-30 | n applications of next return to the starting process, for every n >= 1, and no positive number of hops below n does |
| TokenRing.EveryProcessWithinOneRound | src/solution/ProcessToken.java:25-30 | from any process the token reaches any other in fewer than n hops |
| TokenRing.InitAsWritten | src/solution/ProcessToken.java:18-23 | only process 1 sends at construction: one token, to process 2 |
| TokenRing.InitAsWrittenLosesTokenWhenAlone | src/solution/ProcessToken.java:20-22 | with n == 1 the construction sends the only token to a process outside 1..n |
| TokenRing.Init | src/solution/ProcessToken.java:18-23 | only process 1 sends one token, to a ring member; identical to the Java constructor whenever n >= 2 |
| TokenRing.OnMessage | src/solution/ProcessToken.java:33-43 | with wantLock the token is kept and Lock emitted; without it the token goes to next(); state never changes; any other object is Fatal |
| TokenRing.OnLockRequest | src/solution/ProcessToken.java:46-48 | a lock request only sets wantLock and emits nothing |
| TokenRing.OnUnlockRequest | src/solution/ProcessToken.java:51-55 | Unlock, then the token to next(); wantLock is cleared |
| TokenRing.TokenIsConserved | src/solution/ProcessToken.java:33-55 | a delivered token is either kept (Lock) or forwarded once; unlock forwards exactly one token to a ring member; lock requests send none |
| Centralized.Init | src/solution/ProcessCentralized.java:20-24 | only process 1 is the coordinator and only it has a queue, initially empty with the lock available |
| Centralized.Dispatch | src/solution/ProcessCentralized.java:26-42 | nothing happens when unavailable or nobody waits; otherwise the head is popped, granted (Lock for 1, OK for others) and the lock becomes unavailable; a client dispatching is Fatal |
| Centralized.DispatchIsFifo | src/solution/ProcessCentralized.java:26-42 | a dispatch grants only the head of the queue and only when the lock was free: grants followed by what still waits equal what waited |
| Centralized.OnMessage | src/solution/ProcessCentralized.java:45-61 | a client locks only on OK from process 1 and anything else is Fatal; the coordinator frees on REL and appends the sender on REQ, then dispatches; OK or a foreign object at the coordinator is Fatal |
| Centralized.OnLockRequest | src/solution/ProcessCentralized.java:64-71 | the coordinator appends itself and dispatches; a client only sends REQ to process 1 |
| Centralized.OnUnlockRequest | src/solution/ProcessCentralized.java:74-82 | Unlock comes first; a client then sends REL to 1; the coordinator frees the lock and dispatches |
| Centralized.ApplyAtCoordinator | src/solution/ProcessCentralized.java:26-82 | one event at the coordinator: grants followed by the remaining queue equal the old queue plus arrivals, and grants plus freeness never exceed returns plus prior freeness |
| Centralized.CoordinatorIsFifoAndExclusive | src/solution/ProcessCentralized.java:30-40 | over any run, grants go out in arrival order and never exceed the lock returns plus one, so at most one grant is outstanding |
| Philosophers.InitialForks | src/solution/ProcessPhilosophers.java:24-26 | process pid holds, clean, exactly the forks shared with higher ids; self is NOTOWN |
| Philosophers.HeldInitial | src/solution/ProcessPhilosophers.java:24-29 | the initial count of held forks is n - pid |
| Philosophers.Init | src/solution/ProcessPhilosophers.java:19-30 | fork j is OWN iff pid < j and otherwise NOTOWN, owned = n - pid, not hungry, not eating, no ignored Takes |
| Philosophers.InitialForksArePartitioned | src/solution/ProcessPhilosophers.java:24-25 | initially, of two distinct processes exactly one holds the fork they share |
| Philosophers.Receive | src/solution/ProcessPhilosophers.java:46-56 | a Take on a fork not NOTOWN is Fatal; otherwise the fork becomes OWN, owned rises by 1, and Lock (with eating) happens exactly when hungry and owned reaches n-1 |
| Philosophers.OnTake | src/solution/ProcessPhilosophers.java:41-57 | with a pending ignore for src, a Take only decrements that counter and emits nothing; otherwise it is received |
| Philosophers.MarkDirty | src/solution/ProcessPhilosophers.java:69-75 | every OWN entry except self becomes DIRTY, every other entry is unchanged |
| Philosophers.HeldMarkDirty | src/solution/ProcessPhilosophers.java:69-75 | dirtying clean forks does not change the number of held forks |
| Philosophers.Yield | src/solution/ProcessPhilosophers.java:69-87 | for a requested fork we hold: if not hungry and it is clean, every clean peer fork is dirtied, the requested one included; then, unless eating, a dirty fork is surrendered with Take (TakeGive if hungry) and owned drops by one; otherwise it becomes OWNGIVE and nothing is sent; flags and ignore counters are unchanged |
| Philosophers.OnGive | src/solution/ProcessPhilosophers.java:58-88 | a Give on NOTOWN first receives the fork and leaves ignoreTakes[src] one higher; not eating and the fork dirty (or clean while not hungry), it is surrendered by Take or, if hungry, TakeGive, and owned drops; otherwise it becomes OWNGIVE and nothing is sent; other clean forks are dirtied iff not hungry and the requested fork was clean |
| Philosophers.OnTakeGive | src/solution/ProcessPhilosophers.java:36-39 | a TakeGive is a Take followed by a Give from the same sender, stopping at a fatal Take |
| Philosophers.OnMessage | src/solution/ProcessPhilosophers.java:33-91 | Take, Give and TakeGive go to their handlers; any other object is Fatal |
| Philosophers.SendsTo | src/solution/ProcessPhilosophers.java:103-110 | the message goes exactly to the peers whose fork is in the given state, once each, in ascending order |
| Philosophers.OnLockRequest | src/solution/ProcessPhilosophers.java:94-111 | hungry is set; with owned == n-1 Lock is emitted and eating set, with no sends; otherwise Give goes to exactly the peers whose fork is NOTOWN |
| Philosophers.Settle | src/solution/ProcessPhilosophers.java:119-130 | after a meal each OWNGIVE peer entry becomes NOTOWN and every other peer entry becomes DIRTY |
| Philosophers.HeldSettle | src/solution/ProcessPhilosophers.java:119-130 | after settling, held forks plus forks handed over equal the number of peers |
| Philosophers.SettleCount | src/solution/ProcessPhilosophers.java:119-130 | settling leaves our own slot as it was, and over the whole table the forks still held plus the forks handed over number n-1 |
| Philosophers.OnUnlockRequest | src/solution/ProcessPhilosophers.java:114-131 | Unlock comes before any send; exactly the OWNGIVE peers get a Take, one each in ascending id order, and become NOTOWN; all other peers become DIRTY; owned drops by the number of Takes; hungry and eating are cleared |
| Philosophers.SettledKeepsInv | src/solution/ProcessPhilosophers.java:114-131 | when every peer's fork is held, the settled table, with owned lowered by the number of forks handed over, satisfies the invariant |
| Philosophers.HeldAtMostSlots | src/solution/ProcessPhilosophers.java:97 | at most n-1 forks are held, and n-1 are held exactly when every peer's fork is held |
| Philosophers.InvCounts | src/solution/ProcessPhilosophers.java:97 | under the invariant, owned == n-1 exactly when every peer's fork is held |
| Philosophers.InitEstablishesInv | src/solution/ProcessPhilosophers.java:19-30 | a new process satisfies the invariant: owned counts held forks, self is NOTOWN, eating implies hungry with all forks |
| Philosophers.ReceiveKeepsInv | src/solution/ProcessPhilosophers.java:46-56 | receiving a fork keeps the invariant, and a Lock it emits leaves the process eating |
| Philosophers.OnTakeKeepsInv | src/solution/ProcessPhilosophers.java:41-57 | a Take keeps the invariant |
| Philosophers.YieldKeepsInv | src/solution/ProcessPhilosophers.java:69-87 | answering a request for a held fork keeps the invariant and does not change eating |
| Philosophers.OnGiveKeepsInv | src/solution/ProcessPhilosophers.java:58-88 | a Give, including the synthetic Take, keeps the invariant |
| Philosophers.SyntheticTakeKeepsInv | src/solution/ProcessPhilosophers.java:60-66 | receiving the Take that a Give for a missing fork stands for keeps the invariant and leaves that fork held |
| Philosophers.OnMessageKeepsInv | src/solution/ProcessPhilosophers.java:33-91 | every message from a peer keeps the invariant |
| Philosophers.OnLockRequestKeepsInv | src/solution/ProcessPhilosophers.java:94-111 | a lock request keeps the invariant |
| Philosophers.OnUnlockRequestKeepsInv | src/solution/ProcessPhilosophers.java:114-131 | an unlock while every peer's fork is held keeps the invariant, whether or not the process is eating |
| Philosophers.UnlockWhileEatingKeepsInv | src/solution/ProcessPhilosophers.java:114-131 | in particular an unlock from inside the critical section keeps the invariant |
| Philosophers.UnlockWithoutForkBreaksInv | src/solution/ProcessPhilosophers.java:119-130 | process 2 of 2, fresh from construction, does not hold fork 1; unlock marks it DIRTY without counting it, so the counter no longer matches the table |
| Philosophers.MessageEntersWithAllForks | src/solution/ProcessPhilosophers.java:49-55 | a message that makes the process enter leaves it eating and holding every peer's fork |
| Philosophers.LockRequestEntersWithAllForks | src/solution/ProcessPhilosophers.java:96-101 | a lock request that enters at once leaves the process eating and holding every peer's fork |
| Philosophers.EntersOnlyWithAllForks | src/solution/ProcessPhilosophers.java:49-101 | whenever a handler emits Lock, the process is eating and holds the fork it shares with every peer |

## Left out

- The environment: message transport, delivery order and scheduling. Effects are returned in order and nothing is delivered.
- System-wide mutual exclusion and liveness across processes. These need a channel and interleaving model that the code does not contain. The cross-process statements are about initial fork ownership, the ring's reach, and which of two requesting Ricart-Agrawala processes defers to the other (`RicartAgrawala.ExactlyOneDefers`).
- `int` overflow: logical clocks are `nat` and counters are unbounded `int`.
- Exception types: every exception becomes `Fatal`, and the state after `Fatal` is the state at the throw. In Lamport and Ricart-Agrawala the clock has already advanced by then.
- The heap layout of Lamport's `PriorityQueue`. The queue is a bag and the minimum is taken by (time, pid). When several entries share a pid, `ProcessLamport` removes the first one in heap order and `Lamport.RemoveByPid` removes the first one in insertion order. The contracts state only that one entry of that pid goes.
- The no-op `requests.remove(null)` in Lamport's release handling.
- `Serializable`, the token's object identity (the token is a plain value), and commented-out logging.
- The client's unused availability flag in the centralized process.
- Philosophers message handlers: the sender must be another process in 1..N, because the environment delivers only such messages. The Java behaviour for a sender id outside that range, or equal to its own id, is not modelled.
- Philosophers.OnUnlockRequestKeepsInv: holds when every peer's fork is held, as it is while eating, which is how the environment calls unlock. With a NOTOWN peer the code marks it DIRTY and the counter drifts; `Philosophers.UnlockWithoutForkBreaksInv` exhibits this, so no invariant is claimed there.
- Lamport.OnLockRequest: for a group of one, the exact effect list (nothing or a single Lock) is stated only for pid 1, the only valid id in that group; the new state is stated for every pid.

## Findings

| source | as written | input that shows it | evidently intended | confidence | as-written member | corrected member |
|---|---|---|---|---|---|---|
| src/solution/ProcessToken.java:20-22 | process 1 always sends the bootstrap token to process 2 | n = 1: the token is addressed to process 2, which does not exist, so process 1 never receives it and a lock request is never granted | send the token to process 1's ring successor `next()`, which is 2 whenever n >= 2 | medium, not executed | TokenRing.InitAsWritten, TokenRing.InitAsWrittenLosesTokenWhenAlone | TokenRing.Init |

=== FILE: centralized.dfy ===
/** Centralized mutual exclusion, one process. Process 1 arbitrates: it keeps
    the waiting requesters in arrival order and grants the lock to one of them
    at a time; every other process is a client that asks process 1. */
module Centralized {
  import opened Effects

  /** The id of the arbitrating process. */
  const CoordinatorId: Pid := 1

  /** Ok grants the lock, Req asks for it, Rel gives it back; Foreign is any
      other object delivered to the process. */
  datatype Message = Ok | Req | Rel | Foreign

  /** Only the coordinator has an availability flag and a waiting queue. */
  datatype State = Coordinator(available: bool, waiting: seq<Pid>) | Client

  function Init(pid: Pid): (s: State)
    requires pid >= 1
    ensures s.Coordinator? <==> pid == CoordinatorId
    ensures s.Coordinator? ==> s.available && s.waiting == []
  {
    if pid == CoordinatorId then Coordinator(true, []) else Client
  }

  /** The effect that hands the lock to h: the coordinator enters itself
      directly, any other process is told by an Ok. */
  function GrantTo(h: Pid): Effect<Message>
  {
    if h == CoordinatorId then Lock else Send(h, Ok)
  }

  /** Hand the lock to the longest-waiting requester when it is free. Only the
      coordinator may dispatch. */
  function Dispatch(s: State): (r: Step<State, Message>)
    ensures s.Client? ==> r == Step(s, [Fatal])
    ensures s.Coordinator? && (!s.available || s.waiting == []) ==> r == Step(s, [])
    ensures s.Coordinator? && s.available && s.waiting != [] ==>
              && r.effects == [GrantTo(s.waiting[0])]
              && r.state == Coordinator(false, s.waiting[1..])
  {
    match s
    case Client => Step(s, [Fatal])
    case Coordinator(available, waiting) =>
      if !available || waiting == [] then Step(s, [])
      else Step(Coordinator(false, waiting[1..]), [GrantTo(waiting[0])])
  }

  /** One delivered message. A client accepts only an Ok from the coordinator;
      the coordinator accepts Rel and Req from anyone; all else is fatal. */
  function OnMessage(s: State, src: Pid, m: Message): (r: Step<State, Message>)
    ensures s.Client? ==> r.state == s
    ensures s.Client? ==> (r.effects == [Lock] <==> src == CoordinatorId && m == Ok)
    ensures s.Client? && !(src == CoordinatorId && m == Ok) ==> r.effects == [Fatal]
    ensures s.Coordinator? && m == Rel ==> r == Dispatch(s.(available := true))
    ensures s.Coordinator? && m == Req ==> r == Dispatch(s.(waiting := s.waiting + [src]))
    ensures s.Coordinator? && (m == Ok || m == Foreign) ==> r == Step(s, [Fatal])
  {
    if s.Client? && src == CoordinatorId && m == Ok then Step(s, [Lock])
    else if s.Coordinator? && m == Rel then Dispatch(s.(available := true))
    else if s.Coordinator? && m == Req then Dispatch(s.(waiting := s.waiting + [src]))
    else Step(s, [Fatal])
  }

  /** The coordinator queues itself; a client only asks the coordinator. */
  function OnLockRequest(s: State): (r: Step<State, Message>)
    ensures s.Client? ==> r == Step(s, [Send(CoordinatorId, Req)])
    ensures s.Coordinator? ==> r == Dispatch(s.(waiting := s.waiting + [CoordinatorId]))
  {
    match s
    case Client => Step(s, [Send(CoordinatorId, Req)])
    case Coordinator(_, waiting) => Dispatch(s.(waiting := waiting + [CoordinatorId]))
  }

  /** Leave first; then a client returns the lock to the coordinator, and the
      coordinator frees the lock and dispatches it to the next in line. */
  function OnUnlockRequest(s: State): (r: Step<State, Message>)
    ensures |r.effects| >= 1 && r.effects[0] == Unlock
    ensures s.Client? ==> r == Step(s, [Unlock, Send(CoordinatorId, Rel)])
    ensures s.Coordinator? ==>
              var d := Dispatch(s.(available := true));
              r.state == d.state && r.effects[1..] == d.effects
  {
    match s
    case Client => Step(s, [Unlock, Send(CoordinatorId, Rel)])
    case Coordinator(_, _) =>
      var d := Dispatch(s.(available := true));
      Step(d.state, [Unlock] + d.effects)
  }

  /** What the environment can do to a process. */
  datatype Event = Deliver(src: Pid, msg: Message) | LockRequest | UnlockRequest

  function Apply(s: State, e: Event): Step<State, Message>
  {
    match e
    case Deliver(src, m) => OnMessage(s, src, m)
    case LockRequest => OnLockRequest(s)
    case UnlockRequest => OnUnlockRequest(s)
  }

  /** The processes a run of effects grants the lock to, in order. */
  function Granted(es: seq<Effect<Message>>): seq<Pid>
  {
    if es == [] then []
    else
      (match es[0]
       case Lock => [CoordinatorId]
       case Send(h, Ok) => [h]
       case _ => [])
      + Granted(es[1..])
  }

  /** The requesters an event adds to the coordinator's queue. */
  function Arrivals(evs: seq<Event>): seq<Pid>
  {
    if evs == [] then []
    else
      (match evs[0]
       case Deliver(src, Req) => [src]
       case LockRequest => [CoordinatorId]
       case _ => [])
      + Arrivals(evs[1..])
  }

  /** The events that return the lock to the coordinator. */
  function Returns(evs: seq<Event>): nat
  {
    if evs == [] then 0
    else
      (match evs[0]
       case Deliver(_, Rel) => 1
       case UnlockRequest => 1
       case _ => 0)
      + Returns(evs[1..])
  }

  function Free(s: State): nat
  {
    if s.Coordinator? && s.available then 1 else 0
  }

  /** The final state after a run of events and every grant made on the way. */
  datatype Trace = Trace(final: State, granted: seq<Pid>)

  function Run(s: State, evs: seq<Event>): Trace
    decreases |evs|
  {
    if evs == [] then Trace(s, [])
    else
      var st := Apply(s, evs[0]);
      var rest := Run(st.state, evs[1..]);
      Trace(rest.final, Granted(st.effects) + rest.granted)
  }

  lemma GrantedUnlockPrefix(es: seq<Effect<Message>>)
    ensures Granted([Unlock] + es) == Granted(es)
  {
  }

  /** A dispatch grants the head of the queue, if anything, and only when the
      lock was free: grants followed by what still waits is what waited. */
  lemma DispatchIsFifo(c: State)
    requires c.Coordinator?
    ensures var d := Dispatch(c);
            && d.state.Coordinator?
            && Granted(d.effects) + d.state.waiting == c.waiting
            && |Granted(d.effects)| + Free(d.state) <= Free(c)
  {
    if c.available && c.waiting != [] {
      assert [GrantTo(c.waiting[0])][1..] == [];
      assert c.waiting == [c.waiting[0]] + c.waiting[1..];
    }
  }

  /** One event at the coordinator: whatever it grants, followed by what is
      still waiting, is what was waiting plus what arrived; and it grants at
      most what was free or returned by the event. */
  lemma ApplyAtCoordinator(s: State, e: Event)
    requires s.Coordinator?
    ensures var r := Apply(s, e);
            && r.state.Coordinator?
            && Granted(r.effects) + r.state.waiting == s.waiting + Arrivals([e])
            && |Granted(r.effects)| + Free(r.state) <= Returns([e]) + Free(s)
  {
    assert [e][1..] == [];
    match e
    case Deliver(src, m) =>
      if m == Rel {
        DispatchIsFifo(s.(available := true));
      } else if m == Req {
        DispatchIsFifo(s.(waiting := s.waiting + [src]));
      } else {
        var fatal: seq<Effect<Message>> := [Fatal];
        assert fatal[1..] == [];
      }
    case LockRequest =>
      DispatchIsFifo(s.(waiting := s.waiting + [CoordinatorId]));
    case UnlockRequest =>
      var d := Dispatch(s.(available := true));
      DispatchIsFifo(s.(available := true));
      GrantedUnlockPrefix(d.effects);
  }

  /** Over any run, the coordinator grants strictly in arrival order (first
      come, first served) and never has more than one grant outstanding: the
      grants never exceed the returns plus the one lock that was free. */
  lemma {:induction false} CoordinatorIsFifoAndExclusive(s: State, evs: seq<Event>)
    requires s.Coordinator?
    ensures var t := Run(s, evs);
            && t.final.Coordinator?
            && t.granted + t.final.waiting == s.waiting + Arrivals(evs)
            && |t.granted| + Free(t.final) <= Returns(evs) + Free(s)
            && |t.granted| <= Returns(evs) + 1
    decreases |evs|
  {
    if evs != [] {
      var st := Apply(s, evs[0]);
      ApplyAtCoordinator(s, evs[0]);
      CoordinatorIsFifoAndExclusive(st.state, evs[1..]);
      assert evs == [evs[0]] + evs[1..];
      ArrivalsSplit(evs);
      var rest := Run(st.state, evs[1..]);
      FifoChains(s.waiting, Granted(st.effects), st.state.waiting, Arrivals([evs[0]]),
                 rest.granted, rest.final.waiting, Arrivals(evs[1..]));
    }
  }

  /** Two FIFO steps chain: if the first step's grants g1 and leftover w1 are
      the queue w0 plus arrivals a1, and the second step's grants and leftover
      are w1 plus a2, then all grants and the final leftover are w0 + a1 + a2. */
  lemma FifoChains(w0: seq<Pid>, g1: seq<Pid>, w1: seq<Pid>, a1: seq<Pid>,
                   g2: seq<Pid>, w2: seq<Pid>, a2: seq<Pid>)
    requires g1 + w1 == w0 + a1
    requires g2 + w2 == w1 + a2
    ensures g1 + g2 + w2 == w0 + a1 + a2
  {
    calc {
      g1 + g2 + w2;
      g1 + (g2 + w2);
      g1 + (w1 + a2);
      (g1 + w1) + a2;
    }
  }

  lemma ArrivalsSplit(evs: seq<Event>)
    requires evs != []
    ensures Arrivals(evs) == Arrivals([evs[0]]) + Arrivals(evs[1..])
    ensures Returns(evs) == Returns([evs[0]]) + Returns(evs[1..])
  {
  }
}

=== FILE: effects.dfy ===
/** Vocabulary shared by the five mutual-exclusion processes: what a handler
    hands back to its environment, and the set of peers a process talks to. */
module Effects {

  /** Process identities; a group of size N uses 1..N. */
  type Pid = nat

  /** One observable reaction of a process, in the order the process performs it.
      Fatal stands for the protocol-violation exception, which ends the callback. */
  datatype Effect<M> = Send(dest: Pid, msg: M) | Lock | Unlock | Fatal

  /** The result of one callback: the new local state and the effects it produced. */
  datatype Step<S, M> = Step(state: S, effects: seq<Effect<M>>)

  /** The other members of a group of size n, in ascending order: the order in
      which every broadcast loop of the five processes visits them. */
  function Peers(n: nat, me: Pid): (ps: seq<Pid>)
    ensures forall x :: x in ps <==> 1 <= x <= n && x != me
    ensures forall i, j :: 0 <= i < j < |ps| ==> ps[i] < ps[j]
    ensures |ps| == if 1 <= me <= n then n - 1 else n
  {
    if n == 0 then []
    else if n == me then Peers(n - 1, me)
    else
      var ps := Peers(n - 1, me);
      assert forall i :: 0 <= i < |ps| ==> ps[i] in ps;
      ps + [n]
  }

  /** The same message sent to every process in ps, in order. */
  function SendAll<M>(ps: seq<Pid>, m: M): (es: seq<Effect<M>>)
    ensures |es| == |ps|
    ensures forall i :: 0 <= i < |ps| ==> es[i] == Send(ps[i], m)
  {
    seq(|ps|, i requires 0 <= i < |ps| => Send(ps[i], m))
  }
}

=== FILE: lamport.dfy ===
/** Lamport's mutual-exclusion algorithm, one process. Requests are queued by
    (time, pid); a process enters once its own request heads the queue and all
    N-1 peers have acknowledged it. */
module Lamport {
  import opened Effects
  import opened Timestamps

  /** The message-type tags `ProcessLamport` carries as a byte inside each message. */
  const REQ: int := 1
  const REL: int := 2
  const OK: int := 3

  /** The ack counter's value while no request of ours is pending. */
  const NotWaiting: int := -1

  /** A protocol message carries the sender's clock and a type tag; Foreign is
      any other object delivered to the process. */
  datatype Message = Stamped(time: nat, kind: int) | Foreign

  /** `requests` is the priority queue as a bag: its order is insertion order
      and carries no meaning; the minimum is taken by Precedes. */
  datatype State = State(pid: Pid, n: nat, time: nat, requests: seq<Stamp>, oks: int)

  function Init(pid: Pid, n: nat): (s: State)
    requires 1 <= pid <= n
    ensures s.pid == pid && s.n == n
    ensures s.time == 0 && s.requests == [] && s.oks == NotWaiting
  {
    State(pid, n, 0, [], NotWaiting)
  }

  /** Position of a highest-priority request. */
  function MinIndex(q: seq<Stamp>): (k: nat)
    requires |q| > 0
    ensures k < |q|
    ensures forall j :: 0 <= j < |q| ==> AtMost(q[k], q[j])
  {
    if |q| == 1 then 0
    else
      var k := MinIndex(q[..|q| - 1]);
      assert forall j :: 0 <= j < |q| - 1 ==> q[..|q| - 1][j] == q[j];
      if Precedes(q[|q| - 1], q[k]) then |q| - 1 else k
  }

  /** `e` is a request of `pid` with priority over every queued request. */
  predicate Heads(q: seq<Stamp>, e: Stamp, pid: Pid)
  {
    e in q && e.pid == pid && forall f :: f in q ==> AtMost(e, f)
  }

  /** The queue's poll: take out one highest-priority request. */
  function PopMin(q: seq<Stamp>): (r: seq<Stamp>)
    requires |q| > 0
    ensures multiset(r) == multiset(q) - multiset{q[MinIndex(q)]}
    ensures exists e: Stamp :: Heads(q, e, e.pid) && multiset(r) == multiset(q) - multiset{e}
  {
    var k := MinIndex(q);
    assert q == q[..k] + [q[k]] + q[k + 1..];
    assert Heads(q, q[k], q[k].pid);
    q[..k] + q[k + 1..]
  }

  predicate HasPid(q: seq<Stamp>, p: Pid)
  {
    exists e :: e in q && e.pid == p
  }

  /** Removal that matches requests by pid alone, whatever their time: the
      Java request record compares equal to any record of the same pid. */
  function RemoveByPid(q: seq<Stamp>, p: Pid): (r: seq<Stamp>)
    ensures !HasPid(q, p) ==> r == q
    ensures HasPid(q, p) ==> exists e :: e in q && e.pid == p && multiset(r) == multiset(q) - multiset{e}
  {
    if |q| == 0 then []
    else if q[0].pid == p then
      assert q == [q[0]] + q[1..];
      q[1..]
    else
      var rest := RemoveByPid(q[1..], p);
      assert q == [q[0]] + q[1..];
      RemoveByPidKeepsHead(q[0], q[1..], p, rest);
      [q[0]] + rest
  }

  /** Removal behind a head of another pid keeps that head in front. */
  lemma RemoveByPidKeepsHead(h: Stamp, t: seq<Stamp>, p: Pid, rest: seq<Stamp>)
    requires h.pid != p
    requires !HasPid(t, p) ==> rest == t
    requires HasPid(t, p) ==>
               exists e :: e in t && e.pid == p && multiset(rest) == multiset(t) - multiset{e}
    ensures !HasPid([h] + t, p) ==> [h] + rest == [h] + t
    ensures HasPid([h] + t, p) ==>
              exists e :: e in [h] + t && e.pid == p && multiset([h] + rest) == multiset([h] + t) - multiset{e}
  {
    if HasPid(t, p) {
      var e :| e in t && e.pid == p && multiset(rest) == multiset(t) - multiset{e};
      assert e in [h] + t;
      assert multiset([h] + t) == multiset{h} + multiset(t);
      assert multiset([h] + rest) == multiset{h} + multiset(rest);
    } else {
      forall f | f in [h] + t ensures f.pid != p {
        assert f == h || f in t;
      }
    }
  }


  /** Handling of a release from src: drop the head if it is src's request,
      otherwise drop some request of src found by pid. */
  function Release(q: seq<Stamp>, src: Pid): (r: seq<Stamp>)
    ensures !HasPid(q, src) ==> r == q
    ensures HasPid(q, src) ==> exists e :: e in q && e.pid == src && multiset(r) == multiset(q) - multiset{e}
    ensures |q| > 0 && q[MinIndex(q)].pid == src ==> multiset(r) == multiset(q) - multiset{q[MinIndex(q)]}
  {
    if |q| == 0 || q[MinIndex(q)].pid != src then RemoveByPid(q, src)
    else
      var k := MinIndex(q);
      assert q == q[..k] + [q[k]] + q[k + 1..];
      PopMin(q)
  }

  /** Enter the critical section when every peer has acknowledged and our own
      request heads the queue. */
  function TryEnter(s: State): (r: Step<State, Message>)
    ensures Lock in r.effects <==>
              s.oks == s.n - 1 && exists e :: Heads(s.requests, e, s.pid)
    ensures Lock in r.effects ==>
              && r.effects == [Lock]
              && r.state == s.(requests := r.state.requests, oks := NotWaiting)
              && exists e :: Heads(s.requests, e, s.pid)
                             && multiset(r.state.requests) == multiset(s.requests) - multiset{e}
    ensures Lock !in r.effects ==> r == Step(s, [])
  {
    if s.oks == s.n - 1 && |s.requests| > 0 && s.requests[MinIndex(s.requests)].pid == s.pid then
      var k := MinIndex(s.requests);
      assert Heads(s.requests, s.requests[k], s.pid);
      Step(s.(requests := PopMin(s.requests), oks := NotWaiting), [Lock])
    else
      forall e | Heads(s.requests, e, s.pid) ensures s.oks != s.n - 1 {
        var k := MinIndex(s.requests);
        assert AtMost(e, s.requests[k]) && AtMost(s.requests[k], e);
      }
      Step(s, [])
  }

  /** One delivered message. The clock first moves to max(time, msg.time + 1). */
  function OnMessage(s: State, src: Pid, m: Message): (r: Step<State, Message>)
    ensures m.Foreign? ==> r == Step(s, [Fatal])
    ensures m.Stamped? ==> r.state.time >= s.time && r.state.time > m.time
    ensures m.Stamped? && m.kind != REQ ==> r.state.time == Max(s.time, m.time + 1)
    ensures m.Stamped? && m.kind !in {REQ, REL, OK} ==> r == Step(s.(time := Max(s.time, m.time + 1)), [Fatal])
    ensures m.Stamped? && m.kind == REQ ==>
              && r.effects == [Send(src, Stamped(Max(s.time, m.time + 1), OK))]
              && r.state.time == Max(s.time, m.time + 1) + 1
              && multiset(r.state.requests) == multiset(s.requests) + multiset{Stamp(m.time, src)}
              && r.state == s.(time := Max(s.time, m.time + 1) + 1, requests := r.state.requests)
    ensures m.Stamped? && m.kind == REL ==>
              r == TryEnter(s.(time := Max(s.time, m.time + 1), requests := Release(s.requests, src)))
    ensures m.Stamped? && m.kind == OK ==>
              r == TryEnter(s.(time := Max(s.time, m.time + 1), oks := s.oks + 1))
  {
    match m
    case Foreign => Step(s, [Fatal])
    case Stamped(t, kind) =>
      var s1 := s.(time := Max(s.time, t + 1));
      if kind == REL then
        TryEnter(s1.(requests := Release(s1.requests, src)))
      else if kind == REQ then
        Step(s1.(requests := s1.requests + [Stamp(t, src)], time := s1.time + 1),
             [Send(src, Stamped(s1.time, OK))])
      else if kind == OK then
        TryEnter(s1.(oks := s1.oks + 1))
      else
        Step(s1, [Fatal])
  }

  /** Queue our own request at the current time and ask every peer. The REQ
      sends do not tick the clock; the clock ticks once afterwards. */
  function OnLockRequest(s: State): (r: Step<State, Message>)
    ensures r.state.time == s.time + 1
    ensures s.n != 1 ==>
              && r.state == s.(time := s.time + 1, oks := 0, requests := r.state.requests)
              && multiset(r.state.requests) == multiset(s.requests) + multiset{Stamp(s.time, s.pid)}
              && r.effects == SendAll(Peers(s.n, s.pid), Stamped(s.time, REQ))
    ensures s.n == 1 && s.pid == 1 ==>
              (r.effects == [Lock] <==> exists e :: Heads(s.requests + [Stamp(s.time, 1)], e, 1))
    ensures s.n == 1 && s.pid == 1 ==> (r.effects == [] || r.effects == [Lock])
    ensures s.n == 1 ==> r.state.pid == s.pid && r.state.n == s.n
    ensures s.n == 1 && Lock !in r.effects ==>
              r.state.oks == 0 && r.state.requests == s.requests + [Stamp(s.time, s.pid)]
    ensures s.n == 1 && Lock in r.effects ==>
              && r.state.oks == NotWaiting
              && exists e :: Heads(s.requests + [Stamp(s.time, s.pid)], e, s.pid)
                             && multiset(r.state.requests)
                                == multiset(s.requests) + multiset{Stamp(s.time, s.pid)} - multiset{e}
  {
    var queued := s.(oks := 0, requests := s.requests + [Stamp(s.time, s.pid)], time := s.time + 1);
    var asks := SendAll(Peers(s.n, s.pid), Stamped(s.time, REQ));
    if s.n == 1 then
      var e := TryEnter(queued);
      Step(e.state, asks + e.effects)
    else
      Step(queued, asks)
  }

  /** The REL messages of an unlock, each stamped one tick after the previous one. */
  function Releases(ps: seq<Pid>, t: nat): (es: seq<Effect<Message>>)
    ensures |es| == |ps|
    ensures forall i :: 0 <= i < |ps| ==> es[i] == Send(ps[i], Stamped(t + i, REL))
  {
    seq(|ps|, i requires 0 <= i < |ps| => Send(ps[i], Stamped(t + i, REL)))
  }

  /** Leave the critical section first, then tell every peer, one clock tick
      per REL sent. */
  function OnUnlockRequest(s: State): (r: Step<State, Message>)
    ensures |r.effects| == |Peers(s.n, s.pid)| + 1 && r.effects[0] == Unlock
    ensures forall i :: 1 <= i < |r.effects| ==>
              r.effects[i] == Send(Peers(s.n, s.pid)[i - 1], Stamped(s.time + i - 1, REL))
    ensures r.state.time == s.time + |Peers(s.n, s.pid)|
    ensures r.state == s.(time := r.state.time)
  {
    var ps := Peers(s.n, s.pid);
    var es := Releases(ps, s.time);
    Step(s.(time := s.time + |ps|), [Unlock] + es)
  }

  /** Every queued request is stamped strictly before the local clock. */
  predicate ClockAhead(s: State)
  {
    forall e :: e in s.requests ==> e.time < s.time
  }

  lemma TryEnterKeepsClockAhead(s: State)
    requires ClockAhead(s)
    ensures ClockAhead(TryEnter(s).state)
  {
  }

  /** A new process has an empty queue, so its clock is trivially ahead. */
  lemma InitIsClockAhead(pid: Pid, n: nat)
    requires 1 <= pid <= n
    ensures ClockAhead(Init(pid, n))
  {
  }

  /** Releasing only removes requests, so the clock stays ahead of the rest. */
  lemma ReleaseKeepsClockAhead(s: State, src: Pid)
    requires ClockAhead(s)
    ensures ClockAhead(s.(requests := Release(s.requests, src)))
  {
    var q := Release(s.requests, src);
    forall e | e in q ensures e.time < s.time {
      assert e in multiset(q);
    }
  }

  /** Queueing a request stamped no later than the clock, then ticking,
      keeps the clock ahead of the whole queue. */
  lemma QueueKeepsClockAhead(s: State, t: nat, src: Pid)
    requires ClockAhead(s) && t <= s.time
    ensures ClockAhead(s.(requests := s.requests + [Stamp(t, src)], time := s.time + 1))
  {
    var q := s.requests + [Stamp(t, src)];
    forall e | e in q ensures e.time < s.time + 1 {
      assert e in s.requests || e == Stamp(t, src);
    }
  }

  /** A delivered message keeps the clock ahead of the queue: the clock only
      grows, and a queued request is stamped with the received time, which the
      clock has already passed. */
  lemma OnMessageKeepsClockAhead(s: State, src: Pid, m: Message)
    requires ClockAhead(s)
    ensures ClockAhead(OnMessage(s, src, m).state)
  {
    var r := OnMessage(s, src, m);
    if m.Stamped? {
      var s1 := s.(time := Max(s.time, m.time + 1));
      assert ClockAhead(s1);
      if m.kind == REL {
        ReleaseKeepsClockAhead(s1, src);
        TryEnterKeepsClockAhead(s1.(requests := Release(s1.requests, src)));
      } else if m.kind == REQ {
        QueueKeepsClockAhead(s1, m.time, src);
      } else if m.kind == OK {
        TryEnterKeepsClockAhead(s1.(oks := s1.oks + 1));
      }
    }
  }

  /** Our own request is stamped with the clock, which then ticks past it. */
  lemma OnLockRequestKeepsClockAhead(s: State)
    requires ClockAhead(s)
    ensures ClockAhead(OnLockRequest(s).state)
  {
    var queued := s.(oks := 0, requests := s.requests + [Stamp(s.time, s.pid)], time := s.time + 1);
    QueueKeepsClockAhead(s.(oks := 0), s.time, s.pid);
    if s.n == 1 {
      TryEnterKeepsClockAhead(queued);
    }
  }

  /** Lamport's clock condition at one process: every handler keeps the clock
      ahead of every request it has queued, its own included. */
  lemma HandlersKeepClockAhead(s: State, src: Pid, m: Message)
    requires ClockAhead(s)
    ensures ClockAhead(OnMessage(s, src, m).state)
    ensures ClockAhead(OnLockRequest(s).state)
    ensures ClockAhead(OnUnlockRequest(s).state)
  {
    OnMessageKeepsClockAhead(s, src, m);
    OnLockRequestKeepsClockAhead(s);
  }
}

=== FILE: philosophers.dfy ===
/** Chandy-Misra fork passing generalised to a full mesh, one process. Every
    pair of processes shares one fork; a process enters the critical section
    once it holds the forks it shares with all N-1 peers. */
module Philosophers {
  import opened Effects

  /** Own: held and clean. Dirty: held and used, to be surrendered on request.
      OwnGive: held, promised to the peer when we leave the critical section.
      NotOwn: the peer holds it. */
  datatype Fork = Own | Dirty | OwnGive | NotOwn

  /** Take hands the shared fork to the receiver; Give asks the receiver to
      hand it over; TakeGive hands it over and asks for it back at once;
      Foreign is any other object delivered to the process. */
  datatype Message = Take | Give | TakeGive | Foreign

  /** forks[j] and ignoreTakes[j] concern the fork shared with process j, for
      j in 1..n; slot 0 is unused and slot pid names no peer. ignoreTakes[j]
      counts Take messages from j still to be discarded as duplicates. */
  datatype State = State(pid: Pid, n: nat, forks: seq<Fork>, ignoreTakes: seq<nat>,
                         owned: int, hungry: bool, eating: bool)

  predicate Shaped(s: State)
  {
    1 <= s.pid <= s.n && |s.forks| == s.n + 1 && |s.ignoreTakes| == s.n + 1
  }

  predicate IsPeer(s: State, j: Pid)
  {
    1 <= j <= s.n && j != s.pid
  }

  /** Number of peers j in 1..k-1 (j != me) whose fork is held. */
  function Held(f: seq<Fork>, me: Pid, k: nat): nat
    requires k <= |f|
  {
    if k <= 1 then 0
    else Held(f, me, k - 1) + (if k - 1 != me && f[k - 1] != NotOwn then 1 else 0)
  }

  /** Number of peer slots in 1..k-1. */
  function Slots(me: Pid, k: nat): nat
  {
    if k <= 1 then 0 else k - 1 - (if 1 <= me < k then 1 else 0)
  }

  /** At most every peer's fork is held, and all are held exactly when the
      count reaches the number of peers. */
  lemma {:induction false} HeldAtMostSlots(f: seq<Fork>, me: Pid, k: nat)
    requires k <= |f|
    ensures Held(f, me, k) <= Slots(me, k)
    ensures Held(f, me, k) == Slots(me, k) <==> forall j :: 1 <= j < k && j != me ==> f[j] != NotOwn
  {
    if k > 1 {
      HeldAtMostSlots(f, me, k - 1);
    }
  }

  /** Changing one peer's fork changes the count by whether it became or
      stopped being held. */
  lemma {:induction false} HeldUpdate(f: seq<Fork>, me: Pid, k: nat, j: nat, v: Fork)
    requires k <= |f| && 1 <= j < |f| && j != me
    ensures Held(f[j := v], me, k) as int ==
              Held(f, me, k) - (if j < k && f[j] != NotOwn then 1 else 0)
                             + (if j < k && v != NotOwn then 1 else 0)
  {
    if k > 1 {
      HeldUpdate(f, me, k - 1, j, v);
    }
  }

  /** Process pid starts out holding, clean, exactly the forks it shares with
      higher-numbered processes. */
  function InitialForks(pid: Pid, n: nat): (f: seq<Fork>)
    ensures |f| == n + 1
    ensures forall j :: 0 <= j <= n ==> f[j] == if pid < j then Own else NotOwn
  {
    seq(n + 1, j => if pid < j then Own else NotOwn)
  }

  lemma {:induction false} HeldInitial(pid: Pid, n: nat, k: nat)
    requires 1 <= pid <= n && k <= n + 1
    ensures Held(InitialForks(pid, n), pid, k) == if k > pid + 1 then k - 1 - pid else 0
  {
    if k > 1 {
      HeldInitial(pid, n, k - 1);
    }
  }

  function Init(pid: Pid, n: nat): (s: State)
    requires 1 <= pid <= n
    ensures Shaped(s) && s.pid == pid && s.n == n
    ensures forall j :: 1 <= j <= n ==> (s.forks[j] == Own <==> pid < j) && (s.forks[j] == Own || s.forks[j] == NotOwn)
    ensures s.owned == n - pid
    ensures !s.hungry && !s.eating
    ensures forall j :: 0 <= j <= n ==> s.ignoreTakes[j] == 0
  {
    var forks := InitialForks(pid, n);
    HeldInitial(pid, n, n + 1);
    State(pid, n, forks, seq(n + 1, j => 0), Held(forks, pid, n + 1), false, false)
  }

  /** At construction, of any two distinct processes exactly one holds the
      fork they share. */
  lemma InitialForksArePartitioned(i: Pid, j: Pid, n: nat)
    requires 1 <= i <= n && 1 <= j <= n && i != j
    ensures (Init(i, n).forks[j] != NotOwn) != (Init(j, n).forks[i] != NotOwn)
  {
  }

  /** A fork handed over by src: it must not already be ours. Holding every
      fork while hungry starts the meal. */
  function Receive(s: State, src: Pid): (r: Step<State, Message>)
    requires Shaped(s) && 1 <= src <= s.n
    ensures Shaped(r.state) && r.state.pid == s.pid && r.state.n == s.n
    ensures s.forks[src] != NotOwn ==> r == Step(s, [Fatal])
    ensures s.forks[src] == NotOwn ==>
              && r.state == s.(forks := s.forks[src := Own], owned := s.owned + 1, eating := r.state.eating)
              && (Lock in r.effects <==> s.hungry && s.owned + 1 == s.n - 1)
              && r.effects == (if Lock in r.effects then [Lock] else [])
              && r.state.eating == (s.eating || Lock in r.effects)
  {
    if s.forks[src] != NotOwn then Step(s, [Fatal])
    else
      var s1 := s.(forks := s.forks[src := Own], owned := s.owned + 1);
      if s1.hungry && s1.owned == s1.n - 1 then Step(s1.(eating := true), [Lock])
      else Step(s1, [])
  }

  /** A Take from src: discarded while duplicates are pending, else the fork
      is received. */
  function OnTake(s: State, src: Pid): (r: Step<State, Message>)
    requires Shaped(s) && 1 <= src <= s.n
    ensures Shaped(r.state) && r.state.pid == s.pid && r.state.n == s.n
    ensures s.ignoreTakes[src] > 0 ==>
              r == Step(s.(ignoreTakes := s.ignoreTakes[src := s.ignoreTakes[src] - 1]), [])
    ensures s.ignoreTakes[src] == 0 ==> r == Receive(s, src)
  {
    if s.ignoreTakes[src] > 0 then
      Step(s.(ignoreTakes := s.ignoreTakes[src := s.ignoreTakes[src] - 1]), [])
    else
      Receive(s, src)
  }

  /** Every clean held fork except our own slot becomes dirty. */
  function MarkDirty(f: seq<Fork>, me: Pid): (g: seq<Fork>)
    ensures |g| == |f|
    ensures forall i :: 0 <= i < |f| ==> g[i] == if 1 <= i && i != me && f[i] == Own then Dirty else f[i]
  {
    seq(|f|, i requires 0 <= i < |f| => if 1 <= i && i != me && f[i] == Own then Dirty else f[i])
  }

  lemma {:induction false} HeldMarkDirty(f: seq<Fork>, me: Pid, k: nat)
    requires k <= |f|
    ensures Held(MarkDirty(f, me), me, k) == Held(f, me, k)
  {
    if k > 1 {
      HeldMarkDirty(f, me, k - 1);
    }
  }

  /** A request for a fork we hold. Not being hungry, holding a clean fork
      dirties every clean fork, this one included. A dirty fork is then given
      up at once unless we are eating (asking for it back if we are hungry);
      otherwise the request is remembered and honoured on unlock. */
  function Yield(s: State, src: Pid): (r: Step<State, Message>)
    requires Shaped(s) && 1 <= src <= s.n
    ensures Shaped(r.state) && r.state.pid == s.pid && r.state.n == s.n
    ensures r.state.hungry == s.hungry && r.state.eating == s.eating
    ensures r.state.ignoreTakes == s.ignoreTakes
    ensures var dirtied := !s.hungry && s.forks[src] == Own;
            var givesUp := !s.eating && (s.forks[src] == Dirty || (dirtied && src != s.pid));
            && (givesUp ==>
                  && r.state.forks[src] == NotOwn
                  && r.state.owned == s.owned - 1
                  && r.effects == [Send(src, if s.hungry then TakeGive else Take)])
            && (!givesUp ==>
                  && r.state.forks[src] == OwnGive
                  && r.state.owned == s.owned
                  && r.effects == [])
            && (forall j :: 1 <= j <= s.n && j != src ==>
                  r.state.forks[j] == if dirtied && j != s.pid && s.forks[j] == Own then Dirty else s.forks[j])
  {
    var s1 := if !s.hungry && s.forks[src] == Own then s.(forks := MarkDirty(s.forks, s.pid)) else s;
    if !s1.eating && s1.forks[src] == Dirty then
      Step(s1.(forks := s1.forks[src := NotOwn], owned := s1.owned - 1),
           [Send(src, if s1.hungry then TakeGive else Take)])
    else
      Step(s1.(forks := s1.forks[src := OwnGive]), [])
  }

  /** A Give from src. If we believe src already holds the fork, its Take is
      still in flight behind a TakeGive we sent: receive the fork now and
      arrange for the real Take to be discarded when it arrives. */
  function OnGive(s: State, src: Pid): (r: Step<State, Message>)
    requires Shaped(s) && 1 <= src <= s.n && src != s.pid
    ensures Shaped(r.state) && r.state.pid == s.pid && r.state.n == s.n
    ensures r.state.ignoreTakes ==
              s.ignoreTakes[src := s.ignoreTakes[src] + (if s.forks[src] == NotOwn then 1 else 0)]
    ensures r.state.hungry == s.hungry
    ensures var synth := s.forks[src] == NotOwn;
            var held := if synth then Own else s.forks[src];
            var entered := synth && s.hungry && s.owned + 1 == s.n - 1;
            var givesUp := !(s.eating || entered) && (held == Dirty || (held == Own && !s.hungry));
            && r.state.eating == (s.eating || entered)
            && (givesUp ==>
                  && r.state.forks[src] == NotOwn
                  && r.state.owned == s.owned - (if synth then 0 else 1)
                  && r.effects == [Send(src, if s.hungry then TakeGive else Take)])
            && (!givesUp ==>
                  && r.state.forks[src] == OwnGive
                  && r.state.owned == s.owned + (if synth then 1 else 0)
                  && r.effects == (if entered then [Lock] else []))
            && (forall j :: 1 <= j <= s.n && j != src ==>
                  r.state.forks[j] == if !s.hungry && held == Own && j != s.pid && s.forks[j] == Own
                                      then Dirty else s.forks[j])
  {
    if s.forks[src] == NotOwn then
      var t := OnTake(s.(ignoreTakes := s.ignoreTakes[src := 0]), src);
      var s1 := t.state.(ignoreTakes := t.state.ignoreTakes[src := s.ignoreTakes[src] + 1]);
      var g := Yield(s1, src);
      Step(g.state, t.effects + g.effects)
    else
      Yield(s, src)
  }

  /** A TakeGive from src is a Take followed by a Give from src; a fatal Take
      ends the callback. */
  function OnTakeGive(s: State, src: Pid): (r: Step<State, Message>)
    requires Shaped(s) && 1 <= src <= s.n && src != s.pid
    ensures Shaped(r.state) && r.state.pid == s.pid && r.state.n == s.n
    ensures var t := OnTake(s, src);
            r == if t.effects == [Fatal] then t
                 else var g := OnGive(t.state, src); Step(g.state, t.effects + g.effects)
  {
    var t := OnTake(s, src);
    if t.effects == [Fatal] then t
    else
      var g := OnGive(t.state, src);
      Step(g.state, t.effects + g.effects)
  }

  /** One delivered message from peer src. */
  function OnMessage(s: State, src: Pid, m: Message): (r: Step<State, Message>)
    requires Shaped(s) && 1 <= src <= s.n && src != s.pid
    ensures Shaped(r.state) && r.state.pid == s.pid && r.state.n == s.n
    ensures m.Foreign? ==> r == Step(s, [Fatal])
    ensures m.Take? ==> r == OnTake(s, src)
    ensures m.Give? ==> r == OnGive(s, src)
    ensures m.TakeGive? ==> r == OnTakeGive(s, src)
  {
    match m
    case Take => OnTake(s, src)
    case Give => OnGive(s, src)
    case TakeGive => OnTakeGive(s, src)
    case Foreign => Step(s, [Fatal])
  }

  /** Message m sent, in ascending order, to every peer j < k whose fork is in
      state `want`. */
  function SendsTo(f: seq<Fork>, me: Pid, k: nat, want: Fork, m: Message): (es: seq<Effect<Message>>)
    requires k <= |f|
    ensures forall e :: e in es ==> e.Send? && e.msg == m && 1 <= e.dest < k && e.dest != me && f[e.dest] == want
    ensures forall j :: 1 <= j < k && j != me && f[j] == want ==> Send(j, m) in es
    ensures forall a, b :: 0 <= a < b < |es| ==> es[a].dest < es[b].dest
  {
    if k <= 1 then []
    else
      var es := SendsTo(f, me, k - 1, want, m);
      assert forall a :: 0 <= a < |es| ==> es[a] in es;
      es + (if k - 1 != me && f[k - 1] == want then [Send(k - 1, m)] else [])
  }

  /** Becoming hungry: enter at once when every fork is already held, else ask
      every peer whose fork we lack. */
  function OnLockRequest(s: State): (r: Step<State, Message>)
    requires Shaped(s)
    ensures Shaped(r.state) && r.state.hungry
    ensures s.owned == s.n - 1 ==> r == Step(s.(hungry := true, eating := true), [Lock])
    ensures s.owned != s.n - 1 ==>
              && r.state == s.(hungry := true)
              && (forall e :: e in r.effects ==> e.Send? && e.msg == Give && IsPeer(s, e.dest) && s.forks[e.dest] == NotOwn)
              && (forall j: Pid :: IsPeer(s, j) && s.forks[j] == NotOwn ==> Send(j, Give) in r.effects)
              && (forall a, b :: 0 <= a < b < |r.effects| ==> r.effects[a].dest < r.effects[b].dest)
  {
    if s.owned == s.n - 1 then Step(s.(hungry := true, eating := true), [Lock])
    else Step(s.(hungry := true), SendsTo(s.forks, s.pid, s.n + 1, NotOwn, Give))
  }

  /** After a meal: promised forks leave (NotOwn), every other entry, held or
      not, is marked dirty; our own and the unused slot are untouched. */
  function Settle(f: seq<Fork>, me: Pid): (g: seq<Fork>)
    ensures |g| == |f|
    ensures forall i :: 0 <= i < |f| ==>
              g[i] == if i == 0 || i == me then f[i] else if f[i] == OwnGive then NotOwn else Dirty
  {
    seq(|f|, i requires 0 <= i < |f| =>
      if i == 0 || i == me then f[i] else if f[i] == OwnGive then NotOwn else Dirty)
  }

  lemma {:induction false} HeldSettle(f: seq<Fork>, me: Pid, k: nat)
    requires k <= |f|
    ensures Held(Settle(f, me), me, k) + |SendsTo(f, me, k, OwnGive, Take)| == Slots(me, k)
  {
    if k > 1 {
      HeldSettle(f, me, k - 1);
    }
  }

  /** Leaving the critical section: unlock first, then hand every promised
      fork to the peer that asked for it. */
  function OnUnlockRequest(s: State): (r: Step<State, Message>)
    requires Shaped(s)
    ensures Shaped(r.state) && r.state.pid == s.pid && r.state.n == s.n
    ensures !r.state.hungry && !r.state.eating
    ensures |r.effects| >= 1 && r.effects[0] == Unlock
    ensures forall e :: e in r.effects[1..] ==> e.Send? && e.msg == Take && IsPeer(s, e.dest) && s.forks[e.dest] == OwnGive
    ensures forall j: Pid :: IsPeer(s, j) && s.forks[j] == OwnGive ==> Send(j, Take) in r.effects[1..]
    ensures forall a, b :: 1 <= a < b < |r.effects| ==> r.effects[a].dest < r.effects[b].dest
    ensures forall j: Pid :: IsPeer(s, j) ==> r.state.forks[j] == if s.forks[j] == OwnGive then NotOwn else Dirty
    ensures r.state.forks[s.pid] == s.forks[s.pid]
    ensures r.state.owned == s.owned - (|r.effects| - 1)
    ensures r.state.ignoreTakes == s.ignoreTakes
  {
    var handovers := SendsTo(s.forks, s.pid, s.n + 1, OwnGive, Take);
    var es := [Unlock] + handovers;
    assert es[1..] == handovers;
    Step(s.(hungry := false, eating := false, forks := Settle(s.forks, s.pid),
            owned := s.owned - |handovers|), es)
  }

  /** The owned counter matches the table, we never hold a fork with
      ourselves, and eating means hungry with every fork held. */
  predicate Inv(s: State)
  {
    && Shaped(s)
    && s.forks[s.pid] == NotOwn
    && s.owned == Held(s.forks, s.pid, s.n + 1)
    && (s.eating ==> s.hungry && s.owned == s.n - 1)
  }

  ghost predicate HoldsAll(s: State)
    requires Shaped(s)
  {
    forall j: Pid :: IsPeer(s, j) ==> s.forks[j] != NotOwn
  }

  lemma InvCounts(s: State)
    requires Inv(s)
    ensures s.owned <= s.n - 1
    ensures s.owned == s.n - 1 <==> HoldsAll(s)
  {
    HeldAtMostSlots(s.forks, s.pid, |s.forks|);
  }

  lemma InitEstablishesInv(pid: Pid, n: nat)
    requires 1 <= pid <= n
    ensures Inv(Init(pid, n))
  {
  }

  lemma ReceiveKeepsInv(s: State, src: Pid)
    requires Inv(s) && IsPeer(s, src)
    ensures Inv(Receive(s, src).state)
    ensures Lock in Receive(s, src).effects ==> Receive(s, src).state.eating
  {
    if s.forks[src] == NotOwn {
      InvCounts(s);
      HeldUpdate(s.forks, s.pid, s.n + 1, src, Own);
    }
  }

  lemma OnTakeKeepsInv(s: State, src: Pid)
    requires Inv(s) && IsPeer(s, src)
    ensures Inv(OnTake(s, src).state)
  {
    if s.ignoreTakes[src] == 0 {
      ReceiveKeepsInv(s, src);
    }
  }

  lemma YieldKeepsInv(s: State, src: Pid)
    requires Inv(s) && IsPeer(s, src) && s.forks[src] != NotOwn
    ensures Inv(Yield(s, src).state)
    ensures Yield(s, src).state.eating == s.eating
  {
    var k := |s.forks|;
    var s1 := if !s.hungry && s.forks[src] == Own then s.(forks := MarkDirty(s.forks, s.pid)) else s;
    HeldMarkDirty(s.forks, s.pid, k);
    assert Inv(s1);
    if !s1.eating && s1.forks[src] == Dirty {
      HeldUpdate(s1.forks, s1.pid, k, src, NotOwn);
    } else {
      HeldUpdate(s1.forks, s1.pid, k, src, OwnGive);
    }
  }

  /** A Give for a fork we do not hold stands for the Take still in flight:
      receiving it keeps the invariants and leaves the fork held. */
  lemma SyntheticTakeKeepsInv(s: State, src: Pid)
    requires Inv(s) && IsPeer(s, src) && s.forks[src] == NotOwn
    ensures var t := OnTake(s.(ignoreTakes := s.ignoreTakes[src := 0]), src);
            var s1 := t.state.(ignoreTakes := t.state.ignoreTakes[src := s.ignoreTakes[src] + 1]);
            Inv(s1) && IsPeer(s1, src) && s1.forks[src] != NotOwn
  {
    OnTakeKeepsInv(s.(ignoreTakes := s.ignoreTakes[src := 0]), src);
  }

  lemma OnGiveKeepsInv(s: State, src: Pid)
    requires Inv(s) && IsPeer(s, src)
    ensures Inv(OnGive(s, src).state)
  {
    if s.forks[src] == NotOwn {
      SyntheticTakeKeepsInv(s, src);
      var t := OnTake(s.(ignoreTakes := s.ignoreTakes[src := 0]), src);
      YieldKeepsInv(t.state.(ignoreTakes := t.state.ignoreTakes[src := s.ignoreTakes[src] + 1]), src);
    } else {
      YieldKeepsInv(s, src);
    }
  }

  /** The three invariants survive every message from a peer. */
  lemma OnMessageKeepsInv(s: State, src: Pid, m: Message)
    requires Inv(s) && IsPeer(s, src)
    ensures Inv(OnMessage(s, src, m).state)
  {
    match m
    case Take => OnTakeKeepsInv(s, src);
    case Give => OnGiveKeepsInv(s, src);
    case TakeGive =>
      OnTakeKeepsInv(s, src);
      var t := OnTake(s, src);
      if t.effects != [Fatal] {
        OnGiveKeepsInv(t.state, src);
      }
    case Foreign =>
  }

  lemma OnLockRequestKeepsInv(s: State)
    requires Inv(s)
    ensures Inv(OnLockRequest(s).state)
  {
  }

  /** After a meal, over the whole table, the forks still held and the forks
      handed over together make up every peer. */
  lemma SettleCount(f: seq<Fork>, me: Pid, n: nat)
    requires 1 <= me <= n && |f| == n + 1
    ensures Settle(f, me)[me] == f[me]
    ensures Held(Settle(f, me), me, n + 1) + |SendsTo(f, me, n + 1, OwnGive, Take)| == n - 1
  {
    var k := |f|;
    HeldSettle(f, me, k);
  }

  /** When every peer's fork is held, the settled table, with one fork fewer
      for each one handed over, satisfies the invariants. */
  lemma SettledKeepsInv(s: State)
    requires Inv(s) && HoldsAll(s)
    ensures var handovers := SendsTo(s.forks, s.pid, s.n + 1, OwnGive, Take);
            Inv(s.(hungry := false, eating := false, forks := Settle(s.forks, s.pid),
                   owned := s.owned - |handovers|))
  {
    InvCounts(s);
    SettleCount(s.forks, s.pid, s.n);
  }

  /** Unlock keeps the invariants whenever every peer's fork is held. */
  lemma OnUnlockRequestKeepsInv(s: State)
    requires Inv(s) && HoldsAll(s)
    ensures Inv(OnUnlockRequest(s).state)
  {
    SettledKeepsInv(s);
  }

  /** In particular unlock keeps the invariants when it is called, as the
      environment calls it, from inside the critical section. */
  lemma UnlockWhileEatingKeepsInv(s: State)
    requires Inv(s) && s.eating
    ensures Inv(OnUnlockRequest(s).state)
  {
    InvCounts(s);
    OnUnlockRequestKeepsInv(s);
  }

  /** Outside that condition the counter drifts: process 2 of 2 has never held
      fork 1, yet unlock marks it dirty while owned stays 0. */
  lemma UnlockWithoutForkBreaksInv()
    ensures Inv(Init(2, 2)) && !HoldsAll(Init(2, 2))
    ensures !Inv(OnUnlockRequest(Init(2, 2)).state)
  {
    var u := OnUnlockRequest(Init(2, 2)).state;
    assert u.forks[1] == Dirty;
    assert Held(u.forks, 2, 2) == 1;
  }

  /** A message that lets the process enter leaves it eating with every fork. */
  lemma MessageEntersWithAllForks(s: State, src: Pid, m: Message)
    requires Inv(s) && IsPeer(s, src)
    ensures var r := OnMessage(s, src, m);
            Lock in r.effects ==> r.state.eating && HoldsAll(r.state)
  {
    OnMessageKeepsInv(s, src, m);
    InvCounts(OnMessage(s, src, m).state);
    match m
    case Take =>
      if s.ignoreTakes[src] == 0 { ReceiveKeepsInv(s, src); }
    case Give =>
    case TakeGive =>
      var t := OnTake(s, src);
      if t.effects != [Fatal] {
        OnTakeKeepsInv(s, src);
        if s.ignoreTakes[src] == 0 { ReceiveKeepsInv(s, src); }
        assert Lock in t.effects ==> t.state.eating;
      }
    case Foreign =>
  }

  /** A lock request that enters at once leaves the process eating with every
      fork. */
  lemma LockRequestEntersWithAllForks(s: State)
    requires Inv(s)
    ensures var l := OnLockRequest(s);
            Lock in l.effects ==> l.state.eating && HoldsAll(l.state)
  {
    OnLockRequestKeepsInv(s);
    InvCounts(OnLockRequest(s).state);
  }

  /** Whenever a handler enters the critical section, the process is eating
      and holds the fork it shares with every peer. */
  lemma EntersOnlyWithAllForks(s: State, src: Pid, m: Message)
    requires Inv(s) && IsPeer(s, src)
    ensures var r := OnMessage(s, src, m);
            Lock in r.effects ==> r.state.eating && HoldsAll(r.state)
    ensures var r := OnLockRequest(s);
            Lock in r.effects ==> r.state.eating && HoldsAll(r.state)
  {
    MessageEntersWithAllForks(s, src, m);
    LockRequestEntersWithAllForks(s);
  }
}

=== FILE: ricart_agrawala.dfy ===
/** The Ricart-Agrawala algorithm, one process. A request is answered at once
    unless our own pending request has priority, in which case the answer is
    deferred until we leave the critical section. */
module RicartAgrawala {
  import opened Effects
  import opened Timestamps

  /** The message-type tags `ProcessRickartAgrawala` carries as a byte inside each message. */
  const REQ: int := 1
  const OK: int := 2

  /** The value of `mySendTime` while no request of ours is pending. */
  const NotRequesting: int := -1

  /** A protocol message carries the sender's clock and a type tag; Foreign is
      any other object delivered to the process. */
  datatype Message = Stamped(time: nat, kind: int) | Foreign

  /** `mySendTime` is the time of our pending request, or NotRequesting;
      `deferred` holds, in arrival order, the requesters still owed an OK. */
  datatype State = State(pid: Pid, n: nat, time: nat, mySendTime: int, oks: int, deferred: seq<Pid>)

  function Init(pid: Pid, n: nat): (s: State)
    requires 1 <= pid <= n
    ensures s.pid == pid && s.n == n
    ensures s.time == 0 && s.mySendTime == NotRequesting && s.oks == 0 && s.deferred == []
  {
    State(pid, n, 0, NotRequesting, 0, [])
  }

  /** The reply test as `ProcessRickartAgrawala` writes it: answer a request stamped (t, src)
      at once when we are not requesting, when our request is later, or when the
      times tie and our id is the larger one. */
  predicate AnswersAtOnce(mine: int, me: Pid, t: nat, src: Pid)
  {
    mine == NotRequesting || mine > t || (mine == t && me > src)
  }

  /** The reply test is the (time, pid) priority order: we answer at once
      exactly when we are not requesting or the incoming request has priority
      over ours. */
  lemma AnswersAtOnceIsPriority(mine: int, me: Pid, t: nat, src: Pid)
    requires mine >= NotRequesting
    ensures AnswersAtOnce(mine, me, t, src) <==>
              mine == NotRequesting || Precedes(Stamp(t, src), Stamp(mine, me))
  {
  }

  /** Of two distinct requesting processes, exactly one defers the other's
      request: the test is antisymmetric and total on distinct stamps. */
  lemma ExactlyOneDefers(tp: nat, p: Pid, tq: nat, q: Pid)
    requires p != q
    ensures AnswersAtOnce(tp, p, tq, q) != AnswersAtOnce(tq, q, tp, p)
  {
  }

  /** The OKs owed to the deferred requesters, stamped with consecutive clock values. */
  function Answers(q: seq<Pid>, t: nat): (es: seq<Effect<Message>>)
    ensures |es| == |q|
    ensures forall i :: 0 <= i < |q| ==> es[i] == Send(q[i], Stamped(t + i, OK))
  {
    seq(|q|, i requires 0 <= i < |q| => Send(q[i], Stamped(t + i, OK)))
  }

  /** One delivered message. The clock first moves to max(time, msg.time + 1). */
  function OnMessage(s: State, src: Pid, m: Message): (r: Step<State, Message>)
    ensures m.Foreign? ==> r == Step(s, [Fatal])
    ensures m.Stamped? ==> r.state.time >= s.time && r.state.time > m.time
    ensures m.Stamped? && m.kind !in {REQ, OK} ==> r == Step(s.(time := Max(s.time, m.time + 1)), [Fatal])
    ensures m.Stamped? && m.kind == REQ && AnswersAtOnce(s.mySendTime, s.pid, m.time, src) ==>
              && r.effects == [Send(src, Stamped(Max(s.time, m.time + 1), OK))]
              && r.state == s.(time := Max(s.time, m.time + 1) + 1)
    ensures m.Stamped? && m.kind == REQ && !AnswersAtOnce(s.mySendTime, s.pid, m.time, src) ==>
              && r.effects == []
              && r.state == s.(time := Max(s.time, m.time + 1), deferred := s.deferred + [src])
    ensures m.Stamped? && m.kind == OK ==>
              && r.state == s.(time := Max(s.time, m.time + 1), oks := s.oks + 1)
              && (Lock in r.effects <==> s.oks + 1 == s.n - 1)
              && (r.effects == [] || r.effects == [Lock])
  {
    match m
    case Foreign => Step(s, [Fatal])
    case Stamped(t, kind) =>
      var s1 := s.(time := Max(s.time, t + 1));
      if kind == REQ then
        if AnswersAtOnce(s1.mySendTime, s1.pid, t, src) then
          Step(s1.(time := s1.time + 1), [Send(src, Stamped(s1.time, OK))])
        else
          Step(s1.(deferred := s1.deferred + [src]), [])
      else if kind == OK then
        var s2 := s1.(oks := s1.oks + 1);
        Step(s2, if s2.oks == s2.n - 1 then [Lock] else [])
      else
        Step(s1, [Fatal])
  }

  /** Record the request time, ask every peer with that time, then tick the
      clock; a group of one enters at once. */
  function OnLockRequest(s: State): (r: Step<State, Message>)
    ensures r.state == s.(mySendTime := s.time, oks := 0, time := s.time + 1)
    ensures |r.effects| == |Peers(s.n, s.pid)| + (if s.n == 1 then 1 else 0)
    ensures r.effects[..|Peers(s.n, s.pid)|] == SendAll(Peers(s.n, s.pid), Stamped(s.time, REQ))
    ensures Lock in r.effects <==> s.n == 1
  {
    var asks := SendAll(Peers(s.n, s.pid), Stamped(s.time, REQ));
    var st := s.(mySendTime := s.time, oks := 0, time := s.time + 1);
    Step(st, if s.n == 1 then asks + [Lock] else asks)
  }

  /** Leave the critical section, then answer every deferred requester once,
      in arrival order, one clock tick per OK. */
  function OnUnlockRequest(s: State): (r: Step<State, Message>)
    ensures r.state == s.(mySendTime := NotRequesting, deferred := [], time := s.time + |s.deferred|)
    ensures |r.effects| == |s.deferred| + 1 && r.effects[0] == Unlock
    ensures forall i :: 0 <= i < |s.deferred| ==>
              r.effects[i + 1] == Send(s.deferred[i], Stamped(s.time + i, OK))
  {
    Step(s.(mySendTime := NotRequesting, deferred := [], time := s.time + |s.deferred|),
         [Unlock] + Answers(s.deferred, s.time))
  }

  /** A process defers only while it has a request of its own pending, and
    that request is stamped before its clock. */
  predicate DeferralSound(s: State)
  {
    && NotRequesting <= s.mySendTime < s.time
    && (s.deferred != [] ==> s.mySendTime != NotRequesting)
  }

  lemma InitIsDeferralSound(pid: Pid, n: nat)
    requires 1 <= pid <= n
    ensures DeferralSound(Init(pid, n))
  {
  }

  /** Every handler keeps deferral sound, so the unlock that flushes the
      deferred queue is the only place owed answers are paid. */
  lemma HandlersKeepDeferralSound(s: State, src: Pid, m: Message)
    requires DeferralSound(s)
    ensures DeferralSound(OnMessage(s, src, m).state)
    ensures DeferralSound(OnLockRequest(s).state)
    ensures DeferralSound(OnUnlockRequest(s).state)
  {
  }
}

=== FILE: timestamps.dfy ===
/** Logical-time stamps of lock requests and their priority order: lower
    time first, ties broken by the lower process id. Shared by Lamport's
    request queue and the Ricart-Agrawala reply test. */
module Timestamps {
  import opened Effects

  /** A request issued by `pid` at logical time `time`. */
  datatype Stamp = Stamp(time: nat, pid: Pid)

  /** The larger of two clock values; a received stamp moves the clock to at
      least one past it. */
  function Max(a: nat, b: nat): (m: nat)
    ensures m >= a && m >= b && (m == a || m == b)
  {
    if a >= b then a else b
  }

  /** a has strictly higher priority than b. */
  predicate Precedes(a: Stamp, b: Stamp)
  {
    a.time < b.time || (a.time == b.time && a.pid < b.pid)
  }

  /** a has priority at least as high as b. */
  predicate AtMost(a: Stamp, b: Stamp)
  {
    Precedes(a, b) || a == b
  }

  /** The three-way comparison of `ProcessLamport`'s request record: compare times,
      and only when they are equal compare process ids. */
  function Compare(a: Stamp, b: Stamp): (c: int)
    ensures -1 <= c <= 1
    ensures c < 0 <==> Precedes(a, b)
    ensures c == 0 <==> a == b
    ensures c > 0 <==> Precedes(b, a)
  {
    if a.time != b.time then (if a.time < b.time then -1 else 1)
    else if a.pid < b.pid then -1
    else if a.pid == b.pid then 0
    else 1
  }

  /** Precedes is a strict total order on stamps, so AtMost is a total order
      that identifies two stamps only when both time and pid agree. */
  lemma PrecedesIsStrictTotalOrder(a: Stamp, b: Stamp, c: Stamp)
    ensures !Precedes(a, a)
    ensures Precedes(a, b) ==> !Precedes(b, a)
    ensures Precedes(a, b) && Precedes(b, c) ==> Precedes(a, c)
    ensures a == b || Precedes(a, b) || Precedes(b, a)
    ensures AtMost(a, b) && AtMost(b, a) ==> a.time == b.time && a.pid == b.pid
    ensures AtMost(a, b) || AtMost(b, a)
  {
  }
}

=== FILE: token_ring.dfy ===
/** Token-ring mutual exclusion, one process. A single token circulates along
    1 -> 2 -> ... -> N -> 1; holding it is the permission to enter. */
module TokenRing {
  import opened Effects

  /** The token is a marker without identity; Foreign is any other object. */
  datatype Message = Token | Foreign

  datatype State = State(pid: Pid, n: nat, wantLock: bool)

  /** The successor of pid on the ring. */
  function Next(pid: Pid, n: nat): (r: Pid)
    ensures 1 <= pid <= n ==> 1 <= r <= n
    ensures 1 <= pid <= n && n > 1 ==> r != pid
  {
    if n == pid then 1 else pid + 1
  }

  /** k hops along the ring starting at pid. */
  function Hops(pid: Pid, n: nat, k: nat): Pid
  {
    if k == 0 then pid else Next(Hops(pid, n, k - 1), n)
  }

  /** Up to one full round, k hops move the token k places on, wrapping past N. */
  lemma {:induction false} HopsIsRotation(pid: Pid, n: nat, k: nat)
    requires 1 <= pid <= n
    requires k <= n
    ensures Hops(pid, n, k) == if pid + k <= n then pid + k else pid + k - n
  {
    if k > 0 {
      HopsIsRotation(pid, n, k - 1);
    }
  }

  /** N hops bring the token back to where it started, and no fewer do. */
  lemma FullCircle(pid: Pid, n: nat, k: nat)
    requires 1 <= pid <= n
    ensures Hops(pid, n, n) == pid
    ensures 0 < k < n ==> Hops(pid, n, k) != pid
  {
    HopsIsRotation(pid, n, n);
    if k < n {
      HopsIsRotation(pid, n, k);
    }
  }

  /** A token passed along from any process reaches every process in fewer
      than N hops: the ring visits everyone once per round. */
  lemma EveryProcessWithinOneRound(start: Pid, target: Pid, n: nat)
    requires 1 <= start <= n && 1 <= target <= n
    ensures var k := if start <= target then target - start else target + n - start;
            k < n && Hops(start, n, k) == target
  {
    var k := if start <= target then target - start else target + n - start;
    HopsIsRotation(start, n, k);
  }

  /** Construction as the Java constructor writes it: process 1 puts the token on the
      ring by sending it to process 2. */
  function InitAsWritten(pid: Pid, n: nat): (r: Step<State, Message>)
    requires 1 <= pid <= n
    ensures r.state == State(pid, n, false)
    ensures pid == 1 ==> r.effects == [Send(2, Token)]
    ensures pid != 1 ==> r.effects == []
  {
    Step(State(pid, n, false), if pid == 1 then [Send(2, Token)] else [])
  }

  /** In a group of one, the as-written construction addresses the token to a
      process that does not exist, so the only process can never receive it. */
  lemma InitAsWrittenLosesTokenWhenAlone()
    ensures InitAsWritten(1, 1).effects == [Send(2, Token)]
    ensures !(1 <= InitAsWritten(1, 1).effects[0].dest <= 1)
  {
  }

  /** Construction with the token sent to process 1's ring successor, which is
      process 2 whenever there is one. */
  function Init(pid: Pid, n: nat): (r: Step<State, Message>)
    requires 1 <= pid <= n
    ensures r.state == State(pid, n, false)
    ensures pid == 1 ==> |r.effects| == 1 && r.effects[0].Send? && r.effects[0].msg == Token
                         && 1 <= r.effects[0].dest <= n
    ensures pid != 1 ==> r.effects == []
    ensures n >= 2 ==> r == InitAsWritten(pid, n)
  {
    Step(State(pid, n, false), if pid == 1 then [Send(Next(1, n), Token)] else [])
  }

  /** A token either enters the critical section with us, if we asked for it,
      or moves on to the successor; nothing else changes. */
  function OnMessage(s: State, src: Pid, m: Message): (r: Step<State, Message>)
    ensures r.state == s
    ensures m.Foreign? ==> r.effects == [Fatal]
    ensures m.Token? && s.wantLock ==> r.effects == [Lock]
    ensures m.Token? && !s.wantLock ==> r.effects == [Send(Next(s.pid, s.n), Token)]
  {
    match m
    case Token => Step(s, if s.wantLock then [Lock] else [Send(Next(s.pid, s.n), Token)])
    case Foreign => Step(s, [Fatal])
  }

  /** Wanting the lock is purely local: the process waits for the token. */
  function OnLockRequest(s: State): (r: Step<State, Message>)
    ensures r == Step(s.(wantLock := true), [])
  {
    Step(s.(wantLock := true), [])
  }

  /** Leave, then pass the retained token on. */
  function OnUnlockRequest(s: State): (r: Step<State, Message>)
    ensures r.state == s.(wantLock := false)
    ensures r.effects == [Unlock, Send(Next(s.pid, s.n), Token)]
  {
    Step(s.(wantLock := false), [Unlock, Send(Next(s.pid, s.n), Token)])
  }

  /** Tokens a step puts on the wire. */
  function TokensSent(es: seq<Effect<Message>>): nat
  {
    if |es| == 0 then 0
    else TokensSent(es[..|es| - 1]) + (if es[|es| - 1].Send? && es[|es| - 1].msg == Token then 1 else 0)
  }

  /** The token is conserved: a delivered token is either kept (and the lock
      taken) or forwarded once; an unlock forwards the kept token once, to a
      ring member; a lock request sends nothing. */
  lemma TokenIsConserved(s: State, src: Pid)
    requires 1 <= s.pid <= s.n
    ensures var r := OnMessage(s, src, Token);
            TokensSent(r.effects) + (if Lock in r.effects then 1 else 0) == 1
    ensures TokensSent(OnUnlockRequest(s).effects) == 1
    ensures 1 <= OnUnlockRequest(s).effects[1].dest <= s.n
    ensures TokensSent(OnLockRequest(s).effects) == 0
  {
  }
}
